=== FILE: README.md ===
# Functional collection helpers, modelled in Dafny

This project models `index.js` of a small JavaScript utility library. The file
holds ten collection helpers: `myEach`, `myMap`, `myReduce`, `myFind`,
`myFilter`, `mySize`, `myFirst`, `myLast`, `myKeys` and `myValues`. Each one
accepts either an array, visited by index from `0` to `length - 1`, or a plain
object, visited with `for…in` and filtered by `hasOwnProperty`.

Files and modules:

- `optional.dfy` (`Optional`): `Option`. Here `None` is JavaScript's
  `undefined` in its "absent" sense.
- `sequences.dfy` (`Sequences`): the reference definitions the helpers are
  proved against, with their lemmas:
  - `Fold` is the left fold that a side-effecting visitor performs.
  - `Select` is the values a filter keeps.
  - `FindIn` is the first match.
- `collection.dfy` (`Collection`): the input shapes.
  - `Arr(items)` is an array.
  - `Obj(entries)` is an object, given as its enumerable properties in `for…in`
    order. Each `Entry` has a key, a value and an `own` flag, so the
    `hasOwnProperty` filter is explicit.
  - `Visited(c)` is the value sequence `myEach` traverses.
  - `KeysOf(c)` is the own key sequence `myKeys` lists. For an array it is the
    indices written in decimal (`Decimal`), because that is what `for…in`
    reports for an array.
  - `Get` is property access `obj[key]`.
- `helpers.dfy` (`Helpers`): the ten helpers.
  - The loops of `myEach`, `myFind`, `myKeys` and `myValues` are methods with
    loop invariants. Each method is proved against the reference functions.
  - `myMap`, `myFilter` and `myReduce` call `Each` with a named visitor
    (`Push`, `KeepIf`, `ReduceStep`), just as the source passes a closure to
    `myEach`.
  - A visitor's side effect on the variables it closes over becomes a state of
    type `S`. `Each` threads that state through the visits.
  - `myReduce`'s pair (`start`, `initializing`) becomes one `Option` state. It
    is `None` exactly while `initializing` is true. A missing third argument is
    `acc == None`. An explicitly passed `undefined` is `Some` of that value.
  - `mySize`, `myFirst` and `myLast` are functions. `myFirst` and `myLast`
    follow the clamping rules of `Array.prototype.slice` in section 23.1.3.28
    of ECMA-262.

A non-positive `n` does not always give an empty array:

- `myFirst(a, n)` with a negative `n` is `a.slice(0, n)`. It returns every
  element except the last `-n`. It does not return an empty array.
- `myLast(a, 0)` is `a.slice(-0)`, which is `a.slice(0)`. It returns a copy of
  the whole array. A negative `n` returns every element except the first `-n`.

## Model

| member | source | states |
|---|---|---|
| `Helpers.Each` | index.js:8-21 | returns exactly the collection it was given; the visitor's final state is the left fold of the visitor over the array elements in ascending index order, or over the own property values in enumeration order |
| `Collection.ListedIsOwn` | index.js:14-18 | every value a traversal visits, and every key it lists, comes from an own entry of the object; inherited properties never appear |
| `Collection.OwnIsListed` | index.js:14-18 | every own entry of the object is visited, with its key and its value at the same position |
| `Collection.OwnPositions` | index.js:14-18 | the listing is exactly the own entries in enumeration order, each once: listed positions map to strictly ascending enumeration positions, and an entry is listed if and only if it is own |
| `Helpers.Map` | index.js:24-28 | the result has one element per visited value, and element `i` is the callback applied to the `i`-th visited value |
| `Helpers.Reduce` | index.js:31-45 | with an initial value, the result is the left fold of the callback from it; without one, it is `None` (absent) exactly when nothing is visited, and otherwise it is the fold of the remaining values seeded with the first visited value |
| `Helpers.ReducedCases` | index.js:32-44 | the three cases of the reduction: initial value given; empty traversal without one; first value as seed, so a one-element collection gives that element without calling the callback |
| `Helpers.ReduceCallsOncePerValue` | index.js:35-42 | given an initial value, the callback runs once per visited value: counting calls from 0 yields the number of visited values |
| `Helpers.ReduceSeesOnlyItsCollection` | index.js:40 | the callback only ever receives the reduced collection as its third argument: two callbacks that agree on it give the same result |
| `Helpers.Find` | index.js:48-66 | the result is the first visited value satisfying the predicate, or `undefined` when none does; the predicate is applied to visited values only, in order, and never past the first match |
| `Sequences.FindInFirstMatch` | index.js:51-56 | a match at position `k` with no match before it is the value the search returns |
| `Sequences.FindInNoMatch` | index.js:57-65 | when no visited value matches, the search returns `undefined` |
| `Helpers.Filter` | index.js:69-77 | the result is the selection of the visited values satisfying the predicate, in visiting order; every element satisfies it |
| `Sequences.SelectPositions` | index.js:71-75 | the selection is the subsequence of the visited values at exactly the positions where the predicate holds, in ascending order |
| `Sequences.FindIsHeadOfSelect` | index.js:48-77 | the filter's first element is what the search finds, and the filter is empty exactly when the search finds nothing |
| `Helpers.Size` | index.js:80-86 | the size is the number of visited values and the number of listed keys |
| `Helpers.First` | index.js:89-97 | `undefined` for a non-array; with `n` omitted, the first element or `undefined` when empty; for `n >= 0`, the first `min(n, length)` elements; for `n < 0`, all but the last `-n` |
| `Helpers.Last` | index.js:100-108 | `undefined` for a non-array; with `n` omitted, the last element or `undefined` when empty; for `n >= 1`, the last `min(n, length)` elements; for `n == 0`, the whole array; for `n < 0`, all but the first `-n` |
| `Helpers.Keys` | index.js:111-119 | the result is the own key sequence in enumeration order (array indices in decimal), one key per visited value |
| `Collection.KeysDistinct` | index.js:113-117 | the listed keys of an object with unique property names, or of an array, are pairwise distinct |
| `Helpers.Values` | index.js:122-130 | the result is exactly the sequence of visited values, one per listed key |
| `Collection.KeyNamesValue` | index.js:111-130 | keys and values line up: for an object with distinct property names, looking up the `i`-th own key gives the `i`-th own value |

## Left out

- Export boilerplate (`module.exports`, global attachment): it has no behaviour.
- The prototype chain and the `for…in` ordering rules (integer-like names first, then insertion order). The enumeration order is the order of the `entries` sequence. "Inherited" is the `own == false` flag.
- Array holes and extra non-index properties on arrays: an array is a plain sequence of its elements.
- Inputs that are neither arrays nor plain objects (`null`, `undefined`, primitives). In the source, `for…in` over `null` or `undefined` iterates nothing, so the traversing helpers treat them as empty; a string is visited as its characters; `mySize(null)` and `mySize(undefined)` throw a TypeError in `Object.keys` (index.js:84), while `mySize` of another primitive counts its own keys; `myFirst` and `myLast` return `undefined`. The model's `Collection` has no such shape.
- Callbacks with side effects or exceptions: callbacks are pure, total Dafny functions. `myEach`'s visitor effect is the threaded state.
- Coercion of `n` in `slice` (NaN, fractions, strings, `Infinity`, `null`): `n` is an `int`. An explicitly passed `undefined` is `None`.
- Reference identity: collections are values, so "returns the same collection" is equality, and "does not mutate the input" holds by construction.
- Helpers.Find: JavaScript cannot tell a found `undefined` element from no match. The model returns `Some` of the found value, so it keeps those two cases apart.
- Helpers.Reduce: the accumulator and the elements share one type `V`, because without an initial value the first element becomes the accumulator. A callback whose accumulator has another type is covered only through that shared type.
- Helpers.Reduce: `Some(v)` where `v` is JavaScript's `undefined` (a visited `undefined` seed, or a callback that returned `undefined`) cannot be told apart in the source from `None`; both are the same returned `undefined`. The model keeps them apart, so its "`None` exactly when nothing is visited" holds of the model's absent marker, not of the JavaScript value.
- Helpers.Each, Helpers.Find, Helpers.Keys, Helpers.Values, Helpers.Map, Helpers.Filter, Helpers.Reduce: the `own` flag assumes `Object.prototype.hasOwnProperty` is the method called. The source calls `hasOwnProperty` on the input itself (index.js:15, 59, 114, 125), so a plain object with its own property named `hasOwnProperty` that is not a function, or an object with a null prototype, makes these helpers throw a TypeError (`myMap`, `myFilter` and `myReduce` through `myEach`). The model visits such an object normally. `mySize` uses `Object.keys` (index.js:84) and does not throw.
- Helpers.First, Helpers.Last: with `n` omitted, `One(v)` where `v` is JavaScript's `undefined` (or a hole) cannot be told apart in the source from `Undefined`; both come out of the same array access. The model keeps the empty array (`Undefined`) apart from an `undefined` element.
- Helpers.Find: how many times the predicate is called is recorded by a ghost counter (`probes`). It is not an observable effect, because callbacks are pure.

=== FILE: collection.dfy ===
/** The two input shapes every helper accepts, and the order in which a
    traversal visits them. */
module Collection {
  import opened Optional

  /** One enumerable property as a `for…in` loop reports it: its name, its
      value, and whether `hasOwnProperty` holds of it (false for a property
      inherited through the prototype chain). */
  datatype Entry<V> = Entry(key: string, value: V, own: bool)

  /** A JavaScript array (`Array.isArray` holds), or a plain object given by its
      enumerable properties in `for…in` enumeration order. */
  datatype Collection<V> = Arr(items: seq<V>) | Obj(entries: seq<Entry<V>>)

  /** A property name occurs at most once in an enumeration: an own property
      shadows an inherited one of the same name. */
  predicate DistinctKeys<V>(es: seq<Entry<V>>)
  {
    forall i, j | 0 <= i < j < |es| :: es[i].key != es[j].key
  }

  predicate WellFormed<V>(c: Collection<V>)
  {
    c.Obj? ==> DistinctKeys(c.entries)
  }

  /** Names of the own properties, in enumeration order. */
  function OwnKeys<V>(es: seq<Entry<V>>): (r: seq<string>)
    ensures |r| <= |es|
  {
    if es == [] then []
    else
      var last := es[|es| - 1];
      OwnKeys(es[..|es| - 1]) + (if last.own then [last.key] else [])
  }

  /** Values of the own properties, in enumeration order. */
  function OwnValues<V>(es: seq<Entry<V>>): (r: seq<V>)
    ensures |r| <= |es|
  {
    if es == [] then []
    else
      var last := es[|es| - 1];
      OwnValues(es[..|es| - 1]) + (if last.own then [last.value] else [])
  }

  /** Property access `obj[key]`: the value of the property named `key`, own or
      inherited, or `None` when the object has no such enumerable property. */
  function Get<V>(es: seq<Entry<V>>, key: string): Option<V>
  {
    if es == [] then None
    else if es[|es| - 1].key == key then Some(es[|es| - 1].value)
    else Get(es[..|es| - 1], key)
  }

  /** The values a traversal visits: an array's elements by ascending index,
      an object's own property values in enumeration order. */
  function Visited<V>(c: Collection<V>): seq<V>
  {
    match c
    case Arr(items) => items
    case Obj(entries) => OwnValues(entries)
  }

  /** The decimal digit for `d`. */
  function Digit(d: nat): (ch: char)
    requires d < 10
    ensures '0' <= ch <= '9'
  {
    ('0' as int + d) as char
  }

  /** The canonical decimal spelling of `n`, the property name of array index `n`. */
  function Decimal(n: nat): (r: string)
    ensures 1 <= |r| && (|r| == 1 <==> n < 10)
    ensures forall i | 0 <= i < |r| :: '0' <= r[i] <= '9'
  {
    if n < 10 then [Digit(n)] else Decimal(n / 10) + [Digit(n % 10)]
  }

  /** Different indices have different property names. */
  lemma {:induction false} DecimalInjective(a: nat, b: nat)
    requires Decimal(a) == Decimal(b)
    ensures a == b
    decreases a
  {
    if a >= 10 {
      var da, db := Decimal(a), Decimal(b);
      assert da[..|da| - 1] == Decimal(a / 10) && db[..|db| - 1] == Decimal(b / 10);
      assert Digit(a % 10) == da[|da| - 1] == db[|db| - 1] == Digit(b % 10);
      DecimalInjective(a / 10, b / 10);
    }
  }

  /** The property names `for…in` reports for an array of length `n`. */
  function IndexKeys(n: nat): (r: seq<string>)
    ensures |r| == n
  {
    seq(n, i requires 0 <= i < n => Decimal(i))
  }

  /** The own enumerable property names of a collection, in enumeration order. */
  function KeysOf<V>(c: Collection<V>): seq<string>
  {
    match c
    case Arr(items) => IndexKeys(|items|)
    case Obj(entries) => OwnKeys(entries)
  }

  /** Keys and values are listed in step: one own entry per position. */
  lemma {:induction false} OwnKeysValuesSameLength<V>(es: seq<Entry<V>>)
    ensures |OwnKeys(es)| == |OwnValues(es)|
    decreases |es|
  {
    if es != [] {
      OwnKeysValuesSameLength(es[..|es| - 1]);
    }
  }

  /** Whatever a traversal lists at position `i` comes from an own entry of the
      object: nothing inherited is ever listed. */
  lemma {:induction false} ListedIsOwn<V>(es: seq<Entry<V>>, i: nat) returns (j: nat)
    requires i < |OwnKeys(es)|
    ensures |OwnKeys(es)| == |OwnValues(es)|
    ensures j < |es| && es[j].own
    ensures es[j].key == OwnKeys(es)[i] && es[j].value == OwnValues(es)[i]
    decreases |es|
  {
    OwnKeysValuesSameLength(es);
    var n := |es| - 1;
    var init := es[..n];
    OwnKeysValuesSameLength(init);
    if i < |OwnKeys(init)| {
      j := ListedIsOwn(init, i);
    } else {
      j := n;
    }
  }

  /** Every own entry of the object is listed, at the same position among keys
      and among values. */
  lemma {:induction false} OwnIsListed<V>(es: seq<Entry<V>>, j: nat) returns (i: nat)
    requires j < |es| && es[j].own
    ensures i < |OwnKeys(es)| && i < |OwnValues(es)|
    ensures OwnKeys(es)[i] == es[j].key && OwnValues(es)[i] == es[j].value
    decreases |es|
  {
    OwnKeysValuesSameLength(es);
    var n := |es| - 1;
    var init := es[..n];
    OwnKeysValuesSameLength(init);
    if j < n {
      i := OwnIsListed(init, j);
    } else {
      i := |OwnKeys(init)|;
    }
  }

  /** The listing is the own entries in enumeration order, each once: `idx`
      gives, in strictly ascending order, the position in the enumeration of
      the entry listed at each position, and holds exactly the own entries. */
  lemma {:induction false} OwnPositions<V>(es: seq<Entry<V>>) returns (idx: seq<nat>)
    ensures |idx| == |OwnKeys(es)| == |OwnValues(es)|
    ensures forall k | 0 <= k < |idx| ::
              idx[k] < |es| && es[idx[k]].own &&
              es[idx[k]].key == OwnKeys(es)[k] && es[idx[k]].value == OwnValues(es)[k]
    ensures forall k, l | 0 <= k < l < |idx| :: idx[k] < idx[l]
    ensures forall j | 0 <= j < |es| :: es[j].own <==> j in idx
    decreases |es|
  {
    OwnKeysValuesSameLength(es);
    if es == [] {
      idx := [];
    } else {
      var n := |es| - 1;
      var init := es[..n];
      idx := OwnPositions(init);
      assert forall j | 0 <= j < n :: init[j] == es[j];
      if es[n].own {
        idx := idx + [n];
      }
    }
  }

  /** Looking up the name of an entry finds that entry's value. */
  lemma {:induction false} GetFindsEntry<V>(es: seq<Entry<V>>, j: nat)
    requires DistinctKeys(es) && j < |es|
    ensures Get(es, es[j].key) == Some(es[j].value)
    decreases |es|
  {
    var n := |es| - 1;
    if j < n {
      assert es[n].key != es[j].key;
      GetFindsEntry(es[..n], j);
    }
  }

  /** `myKeys` and `myValues` of one object line up: `obj[keys[i]] == values[i]`.
      For an array the two line up by index: key `i` is `Decimal(i)` and value
      `i` is element `i` (see `IndexKeys` and `Visited`); string-keyed lookup on
      an array is not modelled. */
  lemma KeyNamesValue<V>(es: seq<Entry<V>>, i: nat)
    requires DistinctKeys(es) && i < |OwnKeys(es)|
    ensures i < |OwnValues(es)| && Get(es, OwnKeys(es)[i]) == Some(OwnValues(es)[i])
  {
    var j := ListedIsOwn(es, i);
    GetFindsEntry(es, j);
  }

  /** The listed keys of a well-formed collection are pairwise distinct. */
  lemma {:induction false} KeysDistinct<V>(c: Collection<V>)
    requires WellFormed(c)
    ensures forall i, j | 0 <= i < j < |KeysOf(c)| :: KeysOf(c)[i] != KeysOf(c)[j]
  {
    match c
    case Arr(items) =>
      forall i, j | 0 <= i < j < |items|
        ensures IndexKeys(|items|)[i] != IndexKeys(|items|)[j]
      {
        if Decimal(i) == Decimal(j) {
          DecimalInjective(i, j);
        }
      }
    case Obj(entries) =>
      OwnKeysDistinct(entries);
  }

  lemma {:induction false} OwnKeysDistinct<V>(es: seq<Entry<V>>)
    requires DistinctKeys(es)
    ensures forall i, j | 0 <= i < j < |OwnKeys(es)| :: OwnKeys(es)[i] != OwnKeys(es)[j]
    decreases |es|
  {
    if es != [] {
      var n := |es| - 1;
      var init := es[..n];
      OwnKeysDistinct(init);
      if es[n].own {
        forall i | 0 <= i < |OwnKeys(init)|
          ensures OwnKeys(init)[i] != es[n].key
        {
          var j := ListedIsOwn(init, i);
        }
      }
    }
  }

  /** A traversal of an object visits, and lists, as many values as keys;
      an array lists one key per element. */
  lemma KeysMatchVisited<V>(c: Collection<V>)
    ensures |KeysOf(c)| == |Visited(c)|
  {
    if c.Obj? {
      OwnKeysValuesSameLength(c.entries);
    }
  }

  /** The own values of a prefix of the enumeration are a prefix of the own values. */
  lemma {:induction false} OwnValuesPrefix<V>(es: seq<Entry<V>>, k: nat)
    requires k <= |es|
    ensures |OwnValues(es[..k])| <= |OwnValues(es)|
    ensures OwnValues(es[..k]) == OwnValues(es)[..|OwnValues(es[..k])|]
    decreases |es| - k
  {
    if k < |es| {
      OwnValuesPrefix(es, k + 1);
      assert es[..k + 1][..k] == es[..k];
    } else {
      assert es[..k] == es;
    }
  }
}

=== FILE: helpers.dfy ===
/** The ten collection helpers: `myEach`, `myMap`, `myReduce`, `myFind`,
    `myFilter`, `mySize`, `myFirst`, `myLast`, `myKeys` and `myValues`.
    A callback is a pure function; the side effect a `myEach` visitor has on
    the variables it closes over is a state it threads from call to call. */
module Helpers {
  import opened Optional
  import opened Sequences
  import opened Collection

  /** myEach: calls `visit` once per array element in ascending index order,
      or once per own property value of an object (never for an inherited one),
      and returns the collection it was given. */
  method Each<V, S>(c: Collection<V>, visit: (S, V) -> S, s0: S) returns (r: Collection<V>, s: S)
    ensures r == c
    ensures s == Fold(visit, s0, Visited(c))
  {
    s := s0;
    match c {
      case Arr(items) =>
        var i := 0;
        while i < |items|
          invariant 0 <= i <= |items|
          invariant s == Fold(visit, s0, items[..i])
        {
          assert items[..i + 1][..i] == items[..i];
          s := visit(s, items[i]);
          i := i + 1;
        }
        assert items[..i] == items;
      case Obj(entries) =>
        var i := 0;
        while i < |entries|
          invariant 0 <= i <= |entries|
          invariant s == Fold(visit, s0, OwnValues(entries[..i]))
        {
          var init := OwnValues(entries[..i]);
          assert entries[..i + 1][..i] == entries[..i];
          if entries[i].own {
            assert OwnValues(entries[..i + 1]) == init + [entries[i].value];
            assert (init + [entries[i].value])[..|init|] == init;
            s := visit(s, entries[i].value);
          } else {
            assert OwnValues(entries[..i + 1]) == init;
          }
          i := i + 1;
        }
        assert entries[..i] == entries;
    }
    r := c;
  }

  /** The visitor `myMap` hands to `myEach`: push `f(val)` onto the result. */
  function Push<V, U>(f: V -> U): (seq<U>, V) -> seq<U>
  {
    (acc: seq<U>, v: V) => acc + [f(v)]
  }

  lemma {:induction false} FoldPush<V, U>(f: V -> U, xs: seq<V>)
    ensures |Fold(Push(f), [], xs)| == |xs|
    ensures forall i | 0 <= i < |xs| :: Fold(Push(f), [], xs)[i] == f(xs[i])
    decreases |xs|
  {
    if xs != [] {
      FoldPush(f, xs[..|xs| - 1]);
    }
  }

  /** myMap: a new array holding `f` of each visited value, in visiting order. */
  method Map<V, U>(c: Collection<V>, f: V -> U) returns (r: seq<U>)
    ensures |r| == |Visited(c)|
    ensures forall i | 0 <= i < |r| :: r[i] == f(Visited(c)[i])
  {
    var _, result := Each(c, Push(f), []);
    FoldPush(f, Visited(c));
    r := result;
  }

  /** The callback `myReduce` folds with: always given the reduced collection itself. */
  function Combine<V>(f: (V, V, Collection<V>) -> V, c: Collection<V>): (V, V) -> V
  {
    (a: V, v: V) => f(a, v, c)
  }

  /** The visitor `myReduce` hands to `myEach`. Its state is the pair
      (`start`, `initializing`): `None` while initializing, else `Some(start)`. */
  function ReduceStep<V>(f: (V, V, Collection<V>) -> V, c: Collection<V>): (Option<V>, V) -> Option<V>
  {
    (start: Option<V>, v: V) => if start.None? then Some(v) else Some(f(start.value, v, c))
  }

  /** What `myReduce` returns: its visitor folded over the visited values. */
  function Reduced<V>(c: Collection<V>, f: (V, V, Collection<V>) -> V, acc: Option<V>): Option<V>
  {
    Fold(ReduceStep(f, c), acc, Visited(c))
  }

  /** Once an accumulator exists, reducing is the plain left fold of the callback. */
  lemma {:induction false} ReduceStepFromSome<V>(f: (V, V, Collection<V>) -> V, c: Collection<V>, a: V, xs: seq<V>)
    ensures Fold(ReduceStep(f, c), Some(a), xs) == Some(Fold(Combine(f, c), a, xs))
    decreases |xs|
  {
    if xs != [] {
      ReduceStepFromSome(f, c, a, xs[..|xs| - 1]);
    }
  }

  /** The three cases of `myReduce`: with an initial value it is a left fold from
      it; without one, an empty traversal gives `undefined`, and otherwise the
      first visited value seeds the fold over the rest (so a one-element
      collection gives that element without calling the callback). */
  lemma ReducedCases<V>(c: Collection<V>, f: (V, V, Collection<V>) -> V, acc: Option<V>)
    ensures acc.Some? ==> Reduced(c, f, acc) == Some(Fold(Combine(f, c), acc.value, Visited(c)))
    ensures acc.None? && Visited(c) == [] ==> Reduced(c, f, acc) == None
    ensures acc.None? && Visited(c) != [] ==>
              Reduced(c, f, acc) == Some(Fold(Combine(f, c), Visited(c)[0], Visited(c)[1..]))
  {
    var xs := Visited(c);
    if acc.Some? {
      ReduceStepFromSome(f, c, acc.value, xs);
    } else if xs != [] {
      assert xs == [xs[0]] + xs[1..];
      FoldCons(ReduceStep(f, c), None, xs[0], xs[1..]);
      ReduceStepFromSome(f, c, xs[0], xs[1..]);
    }
  }

  /** myReduce: `acc` is `None` when no third argument is passed; an explicitly
      passed `undefined` is `Some` of that value. */
  method Reduce<V>(c: Collection<V>, f: (V, V, Collection<V>) -> V, acc: Option<V>) returns (r: Option<V>)
    ensures r == Reduced(c, f, acc)
    ensures acc.Some? ==> r == Some(Fold(Combine(f, c), acc.value, Visited(c)))
    ensures acc.None? ==> (r == None <==> Visited(c) == [])
    ensures acc.None? && Visited(c) != [] ==> r == Some(Fold(Combine(f, c), Visited(c)[0], Visited(c)[1..]))
  {
    var _, start := Each(c, ReduceStep(f, c), acc);
    ReducedCases(c, f, acc);
    r := start;
  }

  /** With an initial value the callback runs once per visited value: counting
      calls from 0 yields the number of visited values. */
  lemma ReduceCallsOncePerValue(c: Collection<int>)
    ensures Reduced(c, (a: int, v: int, coll: Collection<int>) => a + 1, Some(0)) == Some(|Visited(c)|)
  {
    var f := (a: int, v: int, coll: Collection<int>) => a + 1;
    ReducedCases(c, f, Some(0));
    FoldCountsElements(Combine(f, c), 0, Visited(c));
  }

  /** The callback only ever sees the reduced collection as its third argument:
      two callbacks that agree on it reduce alike. */
  lemma ReduceSeesOnlyItsCollection<V>(c: Collection<V>, f: (V, V, Collection<V>) -> V,
                                       g: (V, V, Collection<V>) -> V, acc: Option<V>)
    requires forall a, v :: f(a, v, c) == g(a, v, c)
    ensures Reduced(c, f, acc) == Reduced(c, g, acc)
  {
    FoldCongruent(ReduceStep(f, c), ReduceStep(g, c), acc, Visited(c));
  }

  /** myFind: the first visited value satisfying `p`, or `None`. The scan stops
      at the first match: `probes` counts the calls of `p`, which is never
      applied past the match nor to an inherited property. */
  method Find<V>(c: Collection<V>, p: V -> bool) returns (r: Option<V>, ghost probes: nat)
    ensures r == FindIn(Visited(c), p)
    ensures probes <= |Visited(c)|
    ensures r.None? ==> probes == |Visited(c)|
    ensures r.Some? ==> 1 <= probes && r.value == Visited(c)[probes - 1]
    ensures forall j | 0 <= j < probes :: p(Visited(c)[j]) <==> r.Some? && j == probes - 1
  {
    r, probes := None, 0;
    match c {
      case Arr(items) =>
        var i := 0;
        while i < |items|
          invariant 0 <= i <= |items| && probes == i && r == None
          invariant forall j | 0 <= j < i :: !p(items[j])
        {
          probes := probes + 1;
          if p(items[i]) {
            r := Some(items[i]);
            break;
          }
          i := i + 1;
        }
        if r.None? {
          FindInNoMatch(items, p);
        } else {
          FindInFirstMatch(items, p, i);
        }
      case Obj(entries) =>
        var i := 0;
        while i < |entries|
          invariant 0 <= i <= |entries| && r == None
          invariant probes == |OwnValues(entries[..i])|
          invariant forall j | 0 <= j < probes :: !p(OwnValues(entries[..i])[j])
        {
          var seen := OwnValues(entries[..i]);
          assert entries[..i + 1][..i] == entries[..i];
          if entries[i].own {
            assert OwnValues(entries[..i + 1]) == seen + [entries[i].value];
            probes := probes + 1;
            if p(entries[i].value) {
              r := Some(entries[i].value);
              OwnValuesPrefix(entries, i + 1);
              break;
            }
          }
          i := i + 1;
        }
        var xs := OwnValues(entries);
        if r.None? {
          assert entries[..i] == entries;
          FindInNoMatch(xs, p);
        } else {
          FindInFirstMatch(xs, p, probes - 1);
        }
    }
  }

  /** The visitor `myFilter` hands to `myEach`: push `val` when `p(val)` holds. */
  function KeepIf<V>(p: V -> bool): (seq<V>, V) -> seq<V>
  {
    (acc: seq<V>, v: V) => if p(v) then acc + [v] else acc
  }

  lemma {:induction false} FoldKeepIf<V>(p: V -> bool, xs: seq<V>)
    ensures Fold(KeepIf(p), [], xs) == Select(xs, p)
    decreases |xs|
  {
    if xs != [] {
      FoldKeepIf(p, xs[..|xs| - 1]);
    }
  }

  /** myFilter: a new array of the visited values satisfying `p`, in visiting order. */
  method Filter<V>(c: Collection<V>, p: V -> bool) returns (r: seq<V>)
    ensures r == Select(Visited(c), p)
    ensures forall i | 0 <= i < |r| :: p(r[i])
  {
    var _, result := Each(c, KeepIf(p), []);
    FoldKeepIf(p, Visited(c));
    r := result;
  }

  /** mySize: an array's `length`, or the length of `Object.keys(obj)`. */
  function Size<V>(c: Collection<V>): (r: nat)
    ensures r == |Visited(c)| && r == |KeysOf(c)|
  {
    KeysMatchVisited(c);
    match c
    case Arr(items) => |items|
    case Obj(entries) => |OwnKeys(entries)|
  }

  /** What `myFirst` and `myLast` return: `undefined`, one element, or a new array. */
  datatype Pick<V> = Undefined | One(value: V) | Many(items: seq<V>)

  function Min(a: int, b: int): int { if a < b then a else b }
  function Max(a: int, b: int): int { if a < b then b else a }

  /** A relative position of `Array.prototype.slice`, section 23.1.3.28 of
      ECMA-262: a negative one counts back from `len`, then the result is
      clamped to [0, len]. */
  function Clamp(rel: int, len: nat): (k: nat)
    ensures k <= len
  {
    if rel < 0 then Max(len + rel, 0) else Min(rel, len)
  }

  /** `s.slice(start)` when `end` is `None`, else `s.slice(start, end)`. */
  function Slice<V>(s: seq<V>, start: int, end: Option<int>): seq<V>
  {
    var k := Clamp(start, |s|);
    var final := if end.None? then |s| else Clamp(end.value, |s|);
    if k <= final then s[k..final] else []
  }

  /** myFirst: `undefined` for a non-array; with `n` omitted the first element
      (`undefined` when empty); else `slice(0, n)`: the first `min(n, length)`
      elements, and for a negative `n` all but the last `-n`. */
  function First<V>(c: Collection<V>, n: Option<int>): (r: Pick<V>)
    ensures !c.Arr? ==> r == Undefined
    ensures c.Arr? && n.None? ==> r == if c.items == [] then Undefined else One(c.items[0])
    ensures c.Arr? && n.Some? && n.value >= 0 ==> r == Many(c.items[..Min(n.value, |c.items|)])
    ensures c.Arr? && n.Some? && n.value < 0 ==> r == Many(c.items[..Max(|c.items| + n.value, 0)])
  {
    match c
    case Obj(_) => Undefined
    case Arr(items) =>
      if n.None? then
        (if |items| > 0 then One(items[0]) else Undefined)
      else
        Many(Slice(items, 0, Some(n.value)))
  }

  /** myLast: `undefined` for a non-array; with `n` omitted the last element
      (`undefined` when empty); else `slice(-n)`: the last `min(n, length)`
      elements for `n >= 1`, a copy of the whole array for `n == 0` (because
      `-0` is `0`), and for a negative `n` all but the first `-n`. */
  function Last<V>(c: Collection<V>, n: Option<int>): (r: Pick<V>)
    ensures !c.Arr? ==> r == Undefined
    ensures c.Arr? && n.None? ==> r == if c.items == [] then Undefined else One(c.items[|c.items| - 1])
    ensures c.Arr? && n.Some? && n.value >= 1 ==> r == Many(c.items[|c.items| - Min(n.value, |c.items|)..])
    ensures c.Arr? && n == Some(0) ==> r == Many(c.items)
    ensures c.Arr? && n.Some? && n.value < 0 ==> r == Many(c.items[Min(-n.value, |c.items|)..])
  {
    match c
    case Obj(_) => Undefined
    case Arr(items) =>
      if n.None? then
        (if |items| > 0 then One(items[|items| - 1]) else Undefined)
      else
        assert Slice(items, -n.value, None) == items[Clamp(-n.value, |items|)..];
        Many(Slice(items, -n.value, None))
  }

  /** myKeys: the own enumerable property names, in enumeration order; for an
      array, its indices spelled in decimal. */
  method Keys<V>(c: Collection<V>) returns (r: seq<string>)
    ensures r == KeysOf(c)
    ensures |r| == Size(c)
  {
    r := [];
    match c {
      case Arr(items) =>
        var i := 0;
        while i < |items|
          invariant 0 <= i <= |items|
          invariant r == IndexKeys(i)
        {
          r := r + [Decimal(i)];
          i := i + 1;
        }
      case Obj(entries) =>
        var i := 0;
        while i < |entries|
          invariant 0 <= i <= |entries|
          invariant r == OwnKeys(entries[..i])
        {
          assert entries[..i + 1][..i] == entries[..i];
          if entries[i].own {
            r := r + [entries[i].key];
          }
          i := i + 1;
        }
        assert entries[..i] == entries;
    }
  }

  /** myValues: the own enumerable property values, in the order of `myKeys`:
      the values a traversal visits. */
  method Values<V>(c: Collection<V>) returns (r: seq<V>)
    ensures r == Visited(c)
    ensures |r| == |KeysOf(c)|
  {
    KeysMatchVisited(c);
    r := [];
    match c {
      case Arr(items) =>
        var i := 0;
        while i < |items|
          invariant 0 <= i <= |items|
          invariant r == items[..i]
        {
          r := r + [items[i]];
          i := i + 1;
        }
        assert items[..i] == items;
      case Obj(entries) =>
        var i := 0;
        while i < |entries|
          invariant 0 <= i <= |entries|
          invariant r == OwnValues(entries[..i])
        {
          assert entries[..i + 1][..i] == entries[..i];
          if entries[i].own {
            r := r + [entries[i].value];
          }
          i := i + 1;
        }
        assert entries[..i] == entries;
    }
  }
}

=== FILE: optional.dfy ===
/** JavaScript's `undefined` result, made explicit. */
module Optional {

  /** `None` stands for a JavaScript `undefined` that means "absent":
      no such element, no value found, no initial accumulator supplied. */
  datatype Option<+T> = None | Some(value: T)
}

=== FILE: sequences.dfy ===
/** Reference definitions over plain sequences: the left fold that a traversal
    with a side-effecting visitor performs, the selection a filter keeps, and
    the first match a short-circuiting search returns. */
module Sequences {
  import opened Optional

  /** Left fold: `f` is applied to the running state and each element of `xs`
      in ascending order. Defined from the end, so that one more loop step is
      one more application of `f`. */
  function Fold<S, V>(f: (S, V) -> S, s0: S, xs: seq<V>): S
  {
    if xs == [] then s0 else f(Fold(f, s0, xs[..|xs| - 1]), xs[|xs| - 1])
  }

  /** Unfolding the fold from the front: the first element is visited first. */
  lemma {:induction false} FoldCons<S, V>(f: (S, V) -> S, s0: S, x: V, ys: seq<V>)
    ensures Fold(f, s0, [x] + ys) == Fold(f, f(s0, x), ys)
    decreases |ys|
  {
    if ys != [] {
      var init := ys[..|ys| - 1];
      assert ([x] + ys)[..|ys|] == [x] + init;
      FoldCons(f, s0, x, init);
    }
  }

  /** A visitor that adds one to the state for every element visits each element once. */
  lemma {:induction false} FoldCountsElements<V>(f: (int, V) -> int, n: int, xs: seq<V>)
    requires forall a, v :: f(a, v) == a + 1
    ensures Fold(f, n, xs) == n + |xs|
    decreases |xs|
  {
    if xs != [] {
      FoldCountsElements(f, n, xs[..|xs| - 1]);
    }
  }

  /** Two visitors that agree on every state and element fold to the same result. */
  lemma {:induction false} FoldCongruent<S, V>(f: (S, V) -> S, g: (S, V) -> S, s0: S, xs: seq<V>)
    requires forall a, v :: f(a, v) == g(a, v)
    ensures Fold(f, s0, xs) == Fold(g, s0, xs)
    decreases |xs|
  {
    if xs != [] {
      FoldCongruent(f, g, s0, xs[..|xs| - 1]);
    }
  }

  /** The elements of `xs` that satisfy `p`, in their original order. */
  function Select<V>(xs: seq<V>, p: V -> bool): (r: seq<V>)
    ensures |r| <= |xs|
    ensures forall i | 0 <= i < |r| :: p(r[i])
  {
    if xs == [] then []
    else
      var last := xs[|xs| - 1];
      Select(xs[..|xs| - 1], p) + (if p(last) then [last] else [])
  }

  lemma {:induction false} SelectCons<V>(x: V, ys: seq<V>, p: V -> bool)
    ensures Select([x] + ys, p) == (if p(x) then [x] else []) + Select(ys, p)
    decreases |ys|
  {
    if ys != [] {
      var init := ys[..|ys| - 1];
      assert ([x] + ys)[..|ys|] == [x] + init;
      SelectCons(x, init, p);
    }
  }

  /** `Select(xs, p)` is exactly the subsequence of `xs` at the positions where
      `p` holds: `idx` lists those positions in strictly ascending order. */
  lemma {:induction false} SelectPositions<V>(xs: seq<V>, p: V -> bool) returns (idx: seq<nat>)
    ensures |idx| == |Select(xs, p)|
    ensures forall k | 0 <= k < |idx| :: idx[k] < |xs| && Select(xs, p)[k] == xs[idx[k]]
    ensures forall k, l | 0 <= k < l < |idx| :: idx[k] < idx[l]
    ensures forall i | 0 <= i < |xs| :: p(xs[i]) <==> i in idx
    decreases |xs|
  {
    if xs == [] {
      idx := [];
    } else {
      var n := |xs| - 1;
      var init := xs[..n];
      idx := SelectPositions(init, p);
      assert forall i | 0 <= i < n :: init[i] == xs[i];
      if p(xs[n]) {
        idx := idx + [n];
      }
    }
  }

  /** The first element of `xs` satisfying `p`, or `None`. */
  function FindIn<V>(xs: seq<V>, p: V -> bool): Option<V>
  {
    if xs == [] then None
    else if p(xs[0]) then Some(xs[0])
    else FindIn(xs[1..], p)
  }

  /** A match at `k` with none before it is what `FindIn` returns. */
  lemma {:induction false} FindInFirstMatch<V>(xs: seq<V>, p: V -> bool, k: nat)
    requires k < |xs| && p(xs[k])
    requires forall j | 0 <= j < k :: !p(xs[j])
    ensures FindIn(xs, p) == Some(xs[k])
    decreases k
  {
    if k > 0 {
      assert !p(xs[0]);
      FindInFirstMatch(xs[1..], p, k - 1);
    }
  }

  /** With no match at all, `FindIn` is `None`. */
  lemma {:induction false} FindInNoMatch<V>(xs: seq<V>, p: V -> bool)
    requires forall j | 0 <= j < |xs| :: !p(xs[j])
    ensures FindIn(xs, p) == None
    decreases |xs|
  {
    if xs != [] {
      FindInNoMatch(xs[1..], p);
    }
  }

  /** The search and the selection agree: the first match is the head of the
      selection, and there is no match exactly when the selection is empty. */
  lemma {:induction false} FindIsHeadOfSelect<V>(xs: seq<V>, p: V -> bool)
    ensures Select(xs, p) == [] <==> FindIn(xs, p) == None
    ensures Select(xs, p) != [] ==> FindIn(xs, p) == Some(Select(xs, p)[0])
    decreases |xs|
  {
    if xs != [] {
      var tail := xs[1..];
      assert [xs[0]] + tail == xs;
      SelectCons(xs[0], tail, p);
      FindIsHeadOfSelect(tail, p);
    }
  }
}
